=== FILE: README.md ===
# File-to-table ingestion, modelled in Dafny

This project models the ingestion core of the `Unstructured-dat-to-sql` service.

- `process_file_to_sql` picks a reader by file extension and decodes the file into a frame. It rejects an empty frame and writes a non-empty one into the embedded store as the table named after the file's stem, replacing any earlier table of that name. Every outcome is returned as a status string.
- The `/upload` loop saves each uploaded file under `uploads/`, lowers its suffix and processes it. It appends one `{file, message}` result per file.
- The `/schema/{table_name}` endpoint turns the store's `PRAGMA table_info` rows into column descriptors.
- At start-up, a store file that does not exist yet is created holding the `example` table.
- The sheet endpoint turns a header row and data rows into records (`dict(zip(headers, row))`).

`app.py` (FastAPI) and `app2.py` (Flask) hold the same three functions with the same logic, so they are modelled once. Their lines correspond as follows:

- `process_file_to_sql`: `app.py:18-51` and `app2.py:13-45`.
- The upload loop: `app.py:60-78` and `app2.py:54-72`.
- `get_table_schema`: `app.py:82-107` and `app2.py:76-101`.
- The bootstrap table: `app.py:133-135` and `app2.py:104-106`.

The table below cites whichever file states the property most directly.

Modules, one per file:

- `Wrappers` (`wrappers.dfy`): `Option` and `Result`.
- `Paths` (`paths.dfy`): the part of `pathlib.PurePosixPath` the pipeline uses.
  - Parsing with `splitroot`, dropping empty and `.` parts, and `str()`.
  - `os.path.join`-style joining.
  - `name`, `suffix` and `stem`.
  - ASCII `str.lower`.
- `Tables` (`tables.dfy`): frames, stored tables, the store as a map from table name to table, `to_sql(if_exists="replace", index=False)` and the bootstrap.
- `Ingest` (`ingest.dfy`): extension dispatch, the status strings and `process_file_to_sql`.
- `Upload` (`upload.dfy`): the upload loop, and the batch replay it amounts to.
- `Schema` (`schema.dfy`): `PRAGMA table_info` rows, descriptors and `get_table_schema`.
- `Sheets` (`sheets.dfy`): the records conversion of `get_sheet_data`.

The pandas readers are one abstract function, `Env.decode`. It takes a format and the file's bytes and gives a frame or the text of the exception the reader raised. The exception that connecting and `to_sql` raise is another abstract function, `Env.writeFault`. Failures to create the upload directory or to save a file are given by `Transport`. Nothing in the model depends on what these functions compute.

Two behaviours of the code worth noting:

- A reader that raises returns the "Error processing file" status, not the "empty or could not be parsed" one. This includes `read_csv` on a file with no content, which raises.
- A failure to save an upload is not isolated per file. It escapes the loop, so the whole request answers `{"error": ...}` and the results gathered so far are dropped. Tables written by earlier files stay in the store.

## Model

| member | source | states |
|---|---|---|
| Paths.JoinPath | app.py:67 | no contract of its own: `upload_dir / file.filename`, where an absolute name replaces the directory; `Upload.PlainFileLocation` states what it gives for a plain name |
| Paths.Split | app.py:67 | splitting a path string gives at least one piece, and no piece contains a separator |
| Paths.KeepParts | app.py:67 | parsing keeps only the pieces that are neither empty nor `.`, and keeps every piece that is neither |
| Paths.KeepPartsAppend | app.py:67 | dropping pieces works piecewise over a concatenation, so the kept parts stay in their original order |
| Paths.JoinParts | app.py:73 | no contract of its own: `'/'.join(parts)` inside `str(path)`; `Paths.SplitJoin` and `Paths.ParseStr` state that splitting and parsing give the parts back |
| Paths.SplitJoin | app.py:73 | splitting the separator-joined parts gives the parts back |
| Paths.KeepPartsOfParts | app.py:73 | re-parsing already clean parts keeps all of them |
| Paths.SplitRoot | app.py:67 | the root is `""`, `/` or `//`, root and rest together give back the whole string, and the root is empty exactly when the string does not start with a separator |
| Paths.Parse | app.py:67 | a parsed path has a root of `""`, `/` or `//` and only non-empty, separator-free parts other than `.` |
| Paths.ParseStr | app.py:73 | printing a path with `str()` and parsing the text again, as `Path(file_path)` does, gives the same path, so its name and stem are the ones the loop computed |
| Paths.Str | app.py:73 | printing a well-formed path never gives the empty string (an empty relative path prints as `.`); `Paths.ParseStr` is its inverse |
| Paths.Name | app.py:72 | for a parsed path, the name is empty exactly when the path has no parts, and it is one of the path's parts when there are any; `Paths.NameOfChild` states that it is the final one |
| Paths.NameOfChild | app.py:72 | the name of a path is its final part: appending a part to a well-formed path keeps it well-formed and makes that part the name, whatever parts precede it |
| Paths.Suffix | app.py:72 | a suffix is empty or a dot-led tail of the name, at least two characters long and shorter than the name; `Paths.SuffixIsSplit`, `Paths.SplitIsSuffix` and `Paths.NoSplitNoSuffix` characterise it exactly |
| Paths.Stem | app.py:43 | the stem is a prefix of the name, non-empty for a non-empty name; `Paths.StemSuffix` shows stem and suffix make up the name |
| Paths.LastDot | app.py:43 | finds the last dot of a name, or reports that the name has none |
| Paths.StemSuffix | app.py:43 | stem followed by suffix is the whole name |
| Paths.SuffixIsSplit | app.py:72 | a non-empty suffix starts with a dot after a non-empty stem and contains no other dot |
| Paths.SplitIsSuffix | app.py:43 | any split of a name into a non-empty stem and a dot-led, dot-free tail of two or more characters is the suffix and stem pathlib reports (the converse direction) |
| Paths.NoSplitNoSuffix | app.py:72 | a name with no dot, only a leading dot, or a trailing dot has an empty suffix, and its stem is the whole name |
| Paths.SuffixExamples | app.py:43 | `archive.tar.gz` has stem `archive.tar`; `.hidden`, `notes.` and `README` keep their whole name as stem; `Data.CSV` has suffix `.CSV` and stem `Data` |
| Paths.Lower | app.py:72 | lowering keeps the length and lowers each character on its own |
| Paths.LowerIdempotent | app.py:72 | a lowered string has no upper-case letters, and lowering it again changes nothing |
| Paths.LowerMatches | app.py:72 | against a lower-case extension, comparing the lowered suffix is comparing the suffix without regard to case, in both directions |
| Tables.IsEmpty | app.py:39 | no contract of its own: `df.empty`, true when there are no columns or no rows; `Ingest.EmptyFrameNotWritten` and `Ingest.Prepare` state its use |
| Tables.ToSql | app.py:47 | the stored table has one nullable column per frame column, with the same name and type, no default and no primary key, and the frame's rows in order |
| Tables.Replace | app.py:47 | after a replace-write the name maps to the new table, the set of names gains only that name, and every other table is unchanged |
| Tables.ReplaceIdempotent | app.py:47 | writing the same table under the same name twice equals writing it once |
| Tables.ReplaceLaterWins | app.py:47 | of two writes to one name, the later one is what remains |
| Tables.Bootstrap | app.py:133-135 | a store that does not exist yet starts with exactly the `example` table (one `INTEGER` column `id`, the primary key, no rows); an existing store is opened unchanged |
| Ingest.FormatOf | app.py:21-37 | a reader is chosen exactly for `.csv`, `.xls`, `.xlsx`, `.json`, `.xml`, `.parquet` and `.txt`, and the chosen reader is the one that extension belongs to |
| Ingest.FormatOfInvertsExtensions | app2.py:16-31 | dispatch and the per-reader extension sets agree in both directions: no extension reaches two readers |
| Ingest.Message | app.py:37-51 | no contract of its own: the four status strings; what they promise is stated by `Ingest.MessageReadable` |
| Ingest.TableName | app.py:43 | no contract of its own: the stem of the path's name; `Upload.PlainFileLocation` and `Upload.HandleSavesUnderStem` state what it gives for an uploaded file |
| Ingest.MessageReadable | app.py:37-51 | the kind of outcome can be read back from every status string, whatever the path, table name or exception text; the string names the extension, or the file path |
| Ingest.Prepare | app.py:18-51 | the decision before any write: unsupported exactly for extensions outside the set, empty exactly when the reader gives an empty frame, a write only for a decoded non-empty frame whose write does not raise, under the path's stem; otherwise an error carrying the reader's or the writer's exception text |
| Ingest.Write | app.py:46-47 | a rejected file leaves the store as it was; a committed frame replaces the one table of its name and leaves all others |
| Ingest.ProcessFileToSql | app.py:18-51 | always returns a status and never raises; only a saved file changes the store, and then only the table named after the path's stem, which maps to the written frame |
| Ingest.UnsupportedLeavesStore | app2.py:16-31 | any extension outside the set, the empty suffix included, gives "Unsupported file format" with the extension and leaves the store unchanged |
| Ingest.EmptyFrameNotWritten | app2.py:33-34 | an empty frame gives the "empty or could not be parsed" status, and nothing is written |
| Ingest.ErrorsBecomeStatus | app2.py:44-45 | an exception from the reader, or from the write of a non-empty frame, becomes an "Error processing file" status with that exception's text, and the store is unchanged |
| Ingest.SavedReplacesStemOnly | app2.py:37-41 | a decodable non-empty frame whose write succeeds is reported as saved to the table named by the stem, and only that table is replaced |
| Ingest.ProcessIdempotent | app.py:46-47 | processing the same file a second time leaves the status and the store as after the first time |
| Upload.Location | app.py:67 | no contract of its own: `Path("uploads") / filename`; `Upload.PlainFileLocation` states where a plain file name lands |
| Upload.Extension | app.py:72 | no contract of its own: the location's suffix lower-cased; `Upload.ExtensionIgnoresCase` and `Upload.NoSuffixRejected` state what reaches the readers |
| Upload.PlainFileLocation | app.py:67-73 | a plain file name joined onto `uploads` is the path's last part, so its name is the file name; the path prints as `uploads/<name>`, and re-parsing that text gives the stem of the file name as table name |
| Upload.Outcome | app.py:72-73 | no contract of its own: the decision `process_file_to_sql(str(file_location), file_location.suffix.lower())` makes for a file; `Upload.Handle`, `Upload.HandleSavesUnderStem` and `Upload.ExtensionIgnoresCase` state what it decides |
| Upload.Handle | app.py:72-73 | one loop step is the file's store-independent decision applied to the current store; it is unsupported exactly when the lowered suffix is outside the set |
| Upload.HandleSavesUnderStem | app2.py:62-67 | a plain file name that is saved is reported at `uploads/<name>` and written to the table named by its stem, in the stem's own case |
| Upload.Report | app.py:74 | no contract of its own: the `{"file": ..., "message": ...}` entry for a file; `Upload.UploadLoop` states that the results are these entries, one per file, in order |
| Upload.FirstFailedSave | app.py:66-69 | finds the first file whose save raises, with every file before it saved, or reports that every save succeeds |
| Upload.UploadLoop | app.py:61-78 | when every save succeeds: exactly one result per file, in input order, each carrying that file's name and its own status however earlier files fared, and the store is every file's write in turn; when a save fails: the error reply carries that exception's text, and the store holds the writes of the files before it |
| Upload.UploadFiles | app2.py:54-72 | the same, for the decisions `process_file_to_sql` makes on each lowered suffix; a failure to create the upload directory gives the error reply before any file is looked at, with no write |
| Upload.Replay | app.py:66-73 | no contract of its own: the store after the loop has written each file's decision in turn; `Upload.UploadLoop` states that the loop leaves this store, and `Upload.ReplayKeys`, `Upload.ReplayLastWriterWins` and `Upload.ReplayKeepsUnwritten` state what it holds |
| Upload.ReplayStep | app.py:66-74 | each step of the batch's store is `process_file_to_sql` against the store left by the files before it, and its status does not depend on that store |
| Upload.ReplayKeepsUnwritten | app.py:66-74 | a table no file of the batch writes is exactly as before the batch, whether present or absent |
| Upload.ReplayLastWriterWins | app2.py:61-68 | when several files of a batch write the same table (the same stem), the last of them decides its contents |
| Upload.ReplayKeys | app.py:66-74 | the tables after a batch are those before it plus exactly the names the batch's saved files wrote |
| Upload.SupportedIgnoresCase | app.py:72 | against a supported extension, a lowered suffix matches exactly when the suffix matches ignoring case |
| Upload.ExtensionIgnoresCase | app.py:72 | a file reaches a given reader exactly when its suffix matches that reader's extension ignoring case |
| Upload.NoSuffixRejected | app2.py:66-67 | a file with no suffix is reported as unsupported with the empty extension, and the store is unchanged |
| Upload.DataCsvLocation | app.py:67 | `Data.CSV` is saved at `uploads/Data.CSV` and keeps `Data.CSV` as its name |
| Upload.UpperCaseSuffixLowered | app.py:72-73 | `Data.CSV` is dispatched as `.csv`, while its table name keeps the stem's case, `Data` |
| Upload.UpperCaseSuffixAccepted | app2.py:66-67 | uploading `Data.CSV` with decodable content saves it to table `Data` and replaces only that table |
| Schema.Describe | app.py:90-100 | one descriptor per PRAGMA row, in the rows' order, with id, name, type and default copied, and each flag true exactly when its integer is nonzero |
| Schema.GetTableSchema | app.py:82-107 | the schema reply exactly when the query returns at least one row; an empty result gives the "does not exist or has no schema" error; a raising query gives the "Failed to retrieve schema" error with its text |
| Schema.TableInfo | app.py:86-87 | PRAGMA reports one row per declared column, numbered from 0 in declaration order, with the not-null flag as 0/1 and the primary-key position |
| Schema.Query | app.py:84-87 | a name the store has no table for yields no rows rather than an error |
| Schema.SchemaOf | app.py:82-105 | no contract of its own: `get_table_schema` against the store when the query does not raise; `Schema.MissingTableIsError`, `Schema.ExampleSchema` and `Schema.SchemaAfterIngest` state what it answers |
| Schema.DescribeTableInfo | app2.py:84-93 | the descriptors of a stored table give back its column definitions, with the primary-key flag set exactly for the key's columns |
| Schema.MissingTableIsError | app2.py:96-97 | asking for a table that does not exist gives the "does not exist or has no schema" error |
| Schema.ExampleSchema | app2.py:104-106 | a fresh store describes `example` as one `INTEGER` column `id` that is the primary key and is not declared not-null |
| Schema.SchemaAfterIngest | app.py:90-105 | after a file is saved, its table's schema lists the frame's columns in order, nullable, without defaults and outside any primary key |
| Sheets.LastIndex | sheets_connector.py:37 | finds the last occurrence of a header, or reports that it is absent |
| Sheets.ZipDict | sheets_connector.py:37 | no contract of its own: `dict(zip(keys, vals))`; `Sheets.ZipDictLookup` states its keys and values exactly |
| Sheets.ZipDictLookup | sheets_connector.py:37 | a key is in a zipped record exactly when it is among the headers that have a cell, and it maps to the cell under its last such occurrence |
| Sheets.Records | sheets_connector.py:35-39 | no rows give no records; otherwise one record per row after the header, in order, built from the header row and that row |
| Sheets.RecordFields | sheets_connector.py:37 | record k has exactly the headers up to the shorter of the header row and row k+1, and a repeated header takes the later column's cell |
| Sheets.GetSheetData | sheets_connector.py:32-43 | a fetch that raises gives its text with status 500; a missing `values` entry gives no records; otherwise the reply is the records of the rows |
| Sheets.ShortRowTruncates | sheets_connector.py:37 | headers `a, b, c` over a one-cell row give a record holding `a` alone |
| Sheets.DuplicateHeaderLastWins | sheets_connector.py:37 | headers `a, a` over cells `1, 2` give a record mapping `a` to `2` |

## Left out

- The pandas readers (`read_csv`, `read_excel`, `json_normalize`, `read_xml`, `read_parquet`) and the type inference of `to_sql`. These are foreign library code. Decoding is the abstract `Env.decode`, and a column's SQL type is an abstract tag. Legacy `.xls` files, which the `openpyxl` engine cannot read, fall under a reader that raises.
- SQLite itself: connections, the store file, and a write that fails midway. A write is atomic over a map.
- SQLite's case-insensitive table names. pandas checks whether a table exists with a case-sensitive lookup, but `CREATE TABLE` compares names without regard to case. So after `data.csv` is stored, uploading `Data.csv` makes the write raise ("table already exists"): the upload reports "Error processing file" and the table `data` stays as it was. The store is keyed by exact name, and whether a write raises is given by `Env.writeFault`, which sees only the table name and frame. So this outcome is within the model only when `Env.writeFault` yields it, and the model itself would hold both tables.
- Schema.Query: looks up the exact key of the store. SQLite matches the name given to `PRAGMA table_info` without regard to case, and also describes its own system tables such as `sqlite_master`. So with `data` stored, asking for `DATA` gives the schema of `data` in the program. Schema.MissingTableIsError holds only for names that no stored table and no system table matches in that way.
- Upload.UploadLoop: each request is modelled as running alone against the store. The FastAPI handler is `async` and yields at `await file.read()`, and the Flask development server is threaded. So another request can write the store, or overwrite the same `uploads/<name>`, between two files of a batch. The claim that the store is every file's write in turn, and the one of Ingest.ProcessIdempotent, hold only for a request running alone.
- Upload.Handle: a write failure is modelled as independent of what the store already holds, as the clash above shows it is not always. Handle's "store-independent decision" holds only under that abstraction.
- Upload.ReplayStep: its second clause, that a step's status does not depend on the store the earlier files left, rests on the same abstraction.
- The interpolation of the table name into `PRAGMA table_info(...)`. The query is a lookup by name. `Schema.SchemaOf` assumes the query does not raise. A name SQLite rejects (for instance one with a hyphen, which gives a syntax error) reaches the error branch only through the query outcome that `Schema.GetTableSchema` takes as a parameter.
- Writing the uploaded bytes to disk, and the FastAPI and Flask request handling. Only whether creating the directory or saving a file raises is kept, as `Transport`.
- Windows path syntax. Paths are POSIX paths, as on the server the code targets.
- Paths.Suffix: follows `pathlib` as in Python 3.8 up to 3.13, where a name ending in a dot has no suffix (`notes.`); Python 3.14 changed that case. Only the text of an "Unsupported file format" message depends on it, since every supported extension has its dot strictly inside the name.
- Paths.Lower: lowers ASCII letters only. Python's `str.lower` also lowers other letters. Only two non-ASCII characters lower to something that contains an ASCII letter:
  - KELVIN SIGN lowers to `k`;
  - LATIN CAPITAL LETTER I WITH DOT ABOVE lowers to `i` followed by a combining dot.
  No supported extension contains a `k` or a combining mark, so dispatch is unaffected.
- Sheets.Records: a record is a map, so the insertion order of a Python dict's keys is not kept. `jsonify` sorts keys by default in any case.
- The Google Sheets authentication and API call, and the unused `openai` and CORS set-up.
- The HTML form, the Jinja template written at start-up, and the route for `/`.
- Geocoding and map rendering. No code for them is part of this model.
- The exception texts themselves (`str(e)`). They are abstract strings carried unchanged into the messages.

=== FILE: ingest.dfy ===
/** `process_file_to_sql`: choose a reader by extension, reject empty frames,
    name the table after the file's stem, replace that table in the store, and
    turn every failure into a status message instead of an exception. */
module Ingest {
  import opened Wrappers
  import opened Paths
  import opened Tables

  type Bytes = seq<bv8>

  /** The readers the extension dispatch can choose; `TabSeparated` is the CSV
      reader with a tab delimiter, used for `.txt`. */
  datatype Format = Csv | Excel | Json | Xml | Parquet | TabSeparated

  const SupportedExtensions: set<string> :=
    {".csv", ".xls", ".xlsx", ".json", ".xml", ".parquet", ".txt"}

  /** The extensions each reader is chosen for. */
  function Extensions(f: Format): set<string>
  {
    match f
    case Csv => {".csv"}
    case Excel => {".xls", ".xlsx"}
    case Json => {".json"}
    case Xml => {".xml"}
    case Parquet => {".parquet"}
    case TabSeparated => {".txt"}
  }

  /** The `if`/`elif` chain on the (already lower-cased) extension. */
  function FormatOf(ext: string): (r: Option<Format>)
    ensures r.Some? <==> ext in SupportedExtensions
    ensures r.Some? ==> ext in Extensions(r.value)
  {
    if ext == ".csv" then Some(Csv)
    else if ext == ".xls" || ext == ".xlsx" then Some(Excel)
    else if ext == ".json" then Some(Json)
    else if ext == ".xml" then Some(Xml)
    else if ext == ".parquet" then Some(Parquet)
    else if ext == ".txt" then Some(TabSeparated)
    else None
  }

  /** Dispatch and the per-reader extension sets agree in both directions: no two
      readers claim one extension and every listed extension reaches its reader. */
  lemma FormatOfInvertsExtensions(ext: string, f: Format)
    ensures FormatOf(ext) == Some(f) <==> ext in Extensions(f)
  {
  }

  /** The collaborators the pipeline calls but the model does not look inside.
      `decode` is the pandas reader for a format applied to the file's bytes: a
      frame, or the text of the exception it raised. `writeFault` is the text of
      the exception that connecting to the store and `to_sql` raise for this table
      name and frame, or `None` when the write goes through. */
  datatype Env = Env(
    decode: (Format, Bytes) -> Result<Table, string>,
    writeFault: (string, Table) -> Option<string>)

  /** The four kinds of status string the function returns. */
  datatype Status =
    | Unsupported(ext: string)
    | EmptyOrUnparsed(path: string)
    | Saved(path: string, table: string)
    | Failed(path: string, reason: string)

  datatype Kind = UnsupportedKind | EmptyKind | SavedKind | FailedKind

  function KindOf(s: Status): Kind
  {
    match s
    case Unsupported(_) => UnsupportedKind
    case EmptyOrUnparsed(_) => EmptyKind
    case Saved(_, _) => SavedKind
    case Failed(_, _) => FailedKind
  }

  /** How a caller can tell the outcome from the returned text alone: by its first
      character, and for the two messages that start with "File '" by whether it
      ends in a quote and a full stop. */
  function Classify(m: string): Kind
  {
    if |m| > 0 && m[0] == 'U' then UnsupportedKind
    else if |m| > 0 && m[0] == 'E' then FailedKind
    else if |m| >= 2 && m[|m| - 2] == '\'' then SavedKind
    else EmptyKind
  }

  /** The status text the function returns for each outcome. */
  function Message(s: Status): string
  {
    match s
    case Unsupported(ext) => "Unsupported file format: " + ext
    case EmptyOrUnparsed(path) => "File '" + path + "' is empty or could not be parsed."
    case Saved(path, table) =>
      "File '" + path + "' successfully processed and saved to table '" + table + "'."
    case Failed(path, reason) => "Error processing file '" + path + "': " + reason
  }

  /** Whatever the path, table name or exception text, the kind of outcome can be
      read back from the status text, and the text names the extension, or the
      file path. */
  lemma MessageReadable(s: Status)
    ensures Classify(Message(s)) == KindOf(s)
    ensures s.Unsupported? ==>
      var m := Message(s); |m| >= |s.ext| && m[|m| - |s.ext|..] == s.ext
    ensures (s.EmptyOrUnparsed? || s.Saved?) ==>
      var m := Message(s); |m| >= 6 + |s.path| && m[6..6 + |s.path|] == s.path
    ensures s.Failed? ==>
      var m := Message(s); |m| >= 23 + |s.path| && m[23..23 + |s.path|] == s.path
  {
    var m := Message(s);
    match s
    case Unsupported(ext) =>
      assert m[|m| - |ext|..] == ext;
    case EmptyOrUnparsed(path) =>
      assert m[6..6 + |path|] == path;
    case Saved(path, table) =>
      assert m[6..6 + |path|] == path;
    case Failed(path, reason) =>
      assert m[23..23 + |path|] == path;
  }

  /** `Path(file_path).stem`. */
  function TableName(filePath: string): string
  {
    Stem(Name(Parse(filePath)))
  }

  /** What processing a file decides before it touches the store: either a status
      to return, or a frame to write under a table name. */
  datatype Attempt =
    | Reject(status: Status)
    | Commit(name: string, table: Table, status: Status)

  /** The decisions of `process_file_to_sql`: dispatch on the extension, decode,
      reject an empty frame, derive the table name, and whether the write raises.
      None of them depends on what the store holds. */
  function Prepare(env: Env, filePath: string, ext: string, content: Bytes): (a: Attempt)
    ensures a.status.Unsupported? <==> ext !in SupportedExtensions
    ensures a.status.Unsupported? ==> a.status.ext == ext
    ensures !a.status.Unsupported? ==> a.status.path == filePath
    ensures a.Commit? <==> a.status.Saved?
    ensures a.status.EmptyOrUnparsed? <==>
      FormatOf(ext).Some? && env.decode(FormatOf(ext).value, content).Success?
      && IsEmpty(env.decode(FormatOf(ext).value, content).value)
    ensures a.Commit? ==>
      && FormatOf(ext).Some?
      && env.decode(FormatOf(ext).value, content) == Success(a.table)
      && !IsEmpty(a.table)
      && a.name == TableName(filePath)
      && a.status.table == a.name
      && env.writeFault(a.name, a.table).None?
    ensures a.status.Failed? ==>
      FormatOf(ext).Some? &&
      match env.decode(FormatOf(ext).value, content)
      case Failure(e) => a.status.reason == e
      case Success(t) => env.writeFault(TableName(filePath), t) == Some(a.status.reason)
  {
    match FormatOf(ext)
    case None => Reject(Unsupported(ext))
    case Some(format) =>
      match env.decode(format, content)
      case Failure(e) => Reject(Failed(filePath, e))
      case Success(table) =>
        if IsEmpty(table) then Reject(EmptyOrUnparsed(filePath))
        else
          var name := TableName(filePath);
          match env.writeFault(name, table)
          case Some(e) => Reject(Failed(filePath, e))
          case None => Commit(name, table, Saved(filePath, name))
  }

  /** The store after an attempt: a committed frame replaces the table of its
      name, a rejected file leaves the store as it was. */
  function Write(store: Store, a: Attempt): (r: Store)
    ensures a.Reject? ==> r == store
    ensures a.Commit? ==> a.name in r && r[a.name] == ToSql(a.table)
    ensures a.Commit? ==> r.Keys == store.Keys + {a.name}
    ensures forall n :: n in store && !(a.Commit? && n == a.name) ==> n in r && r[n] == store[n]
  {
    match a
    case Reject(_) => store
    case Commit(name, table, _) => Replace(store, name, ToSql(table))
  }

  /** The store after a file and the status it reported. */
  datatype Ingested = Ingested(status: Status, store: Store)

  /** `process_file_to_sql(file_path, file_extension)` against a store. It always
      yields a status (an exception becomes a `Failed` status), and only a saved
      file changes the store, by replacing the one table named after its stem. */
  function ProcessFileToSql(env: Env, store: Store, filePath: string, ext: string, content: Bytes): (r: Ingested)
    ensures r.status.Unsupported? <==> ext !in SupportedExtensions
    ensures r.status.Unsupported? ==> r.status == Unsupported(ext)
    ensures r.status == Prepare(env, filePath, ext, content).status
    ensures r.store == Write(store, Prepare(env, filePath, ext, content))
    ensures !r.status.Saved? ==> r.store == store
    ensures r.status.Saved? ==>
      && r.status.table == TableName(filePath)
      && r.status.table in r.store
      && r.store[r.status.table] == ToSql(Prepare(env, filePath, ext, content).table)
      && r.store.Keys == store.Keys + {r.status.table}
      && forall n :: n in store && n != r.status.table ==> r.store[n] == store[n]
  {
    var a := Prepare(env, filePath, ext, content);
    Ingested(a.status, Write(store, a))
  }

  /** An extension outside the closed set reaches no reader: the status names the
      extension and the store is unchanged. */
  lemma UnsupportedLeavesStore(env: Env, store: Store, filePath: string, ext: string, content: Bytes)
    requires ext !in SupportedExtensions
    ensures ProcessFileToSql(env, store, filePath, ext, content) == Ingested(Unsupported(ext), store)
  {
  }

  /** A frame with no rows or no columns is reported and never written. */
  lemma EmptyFrameNotWritten(env: Env, store: Store, filePath: string, ext: string, content: Bytes)
    requires FormatOf(ext).Some?
    requires env.decode(FormatOf(ext).value, content).Success?
    requires IsEmpty(env.decode(FormatOf(ext).value, content).value)
    ensures ProcessFileToSql(env, store, filePath, ext, content) == Ingested(EmptyOrUnparsed(filePath), store)
  {
  }

  /** An exception from the reader or from the write is returned as an error status
      naming the path and carrying the exception text; the store is unchanged. */
  lemma ErrorsBecomeStatus(env: Env, store: Store, filePath: string, ext: string, content: Bytes)
    requires FormatOf(ext).Some?
    ensures match env.decode(FormatOf(ext).value, content)
      case Failure(e) =>
        ProcessFileToSql(env, store, filePath, ext, content) == Ingested(Failed(filePath, e), store)
      case Success(t) =>
        !IsEmpty(t) && env.writeFault(TableName(filePath), t).Some? ==>
          ProcessFileToSql(env, store, filePath, ext, content)
          == Ingested(Failed(filePath, env.writeFault(TableName(filePath), t).value), store)
  {
  }

  /** A decodable, non-empty frame whose write goes through is saved under the
      stem of the path, replacing any earlier table of that name and nothing else. */
  lemma SavedReplacesStemOnly(env: Env, store: Store, filePath: string, ext: string, content: Bytes, t: Table)
    requires FormatOf(ext).Some?
    requires env.decode(FormatOf(ext).value, content) == Success(t)
    requires !IsEmpty(t)
    requires env.writeFault(TableName(filePath), t).None?
    ensures ProcessFileToSql(env, store, filePath, ext, content)
      == Ingested(Saved(filePath, TableName(filePath)), Replace(store, TableName(filePath), ToSql(t)))
  {
  }

  /** Processing the same file twice leaves the store as processing it once. */
  lemma ProcessIdempotent(env: Env, store: Store, filePath: string, ext: string, content: Bytes)
    ensures var once := ProcessFileToSql(env, store, filePath, ext, content);
      ProcessFileToSql(env, once.store, filePath, ext, content) == once
  {
    var once := ProcessFileToSql(env, store, filePath, ext, content);
    if once.status.Saved? {
      var a := Prepare(env, filePath, ext, content);
      ReplaceIdempotent(store, a.name, ToSql(a.table));
    }
  }
}

=== FILE: paths.dfy ===
/** The part of Python's `pathlib.PurePosixPath` that the upload loop relies on:
    parsing a string into a root and its parts, turning it back into a string,
    joining a file name onto a directory, and the `name`, `suffix` and `stem`
    properties.  Also the ASCII part of `str.lower`. */
module Paths {
  import opened Wrappers

  const Sep: char := '/'

  /** A parsed path: the root ("", "/" or "//") and the parts after it. */
  datatype Path = Path(root: string, parts: seq<string>)

  /** A part that parsing can produce: non-empty, free of separators, not ".". */
  predicate IsPart(p: string)
  {
    p != "" && p != "." && Sep !in p
  }

  predicate WellFormed(p: Path)
  {
    && (p.root == "" || p.root == "/" || p.root == "//")
    && forall i :: 0 <= i < |p.parts| ==> IsPart(p.parts[i])
  }

  // ---------------------------------------------------------------------------
  // str.split('/') and '/'.join(...)

  /** `s.split('/')`: the pieces between separators, empty pieces included. */
  function Split(s: string): (r: seq<string>)
    ensures |r| >= 1
    ensures forall i :: 0 <= i < |r| ==> Sep !in r[i]
    decreases |s|
  {
    if |s| == 0 then [""]
    else
      var rest := Split(s[1..]);
      if s[0] == Sep then [""] + rest
      else [[s[0]] + rest[0]] + rest[1..]
  }

  /** `'/'.join(parts)`. */
  function JoinParts(parts: seq<string>): string
    decreases |parts|
  {
    if |parts| == 0 then ""
    else if |parts| == 1 then parts[0]
    else parts[0] + [Sep] + JoinParts(parts[1..])
  }

  /** The pieces that survive parsing: neither empty nor ".". */
  function KeepParts(pieces: seq<string>): (r: seq<string>)
    ensures |r| <= |pieces|
    ensures forall i :: 0 <= i < |r| ==> r[i] in pieces && r[i] != "" && r[i] != "."
    ensures forall i :: 0 <= i < |pieces| && pieces[i] != "" && pieces[i] != "." ==> pieces[i] in r
    decreases |pieces|
  {
    if |pieces| == 0 then []
    else if pieces[0] == "" || pieces[0] == "." then KeepParts(pieces[1..])
    else [pieces[0]] + KeepParts(pieces[1..])
  }

  lemma {:induction false} SplitNoSep(s: string)
    requires Sep !in s
    ensures Split(s) == [s]
    decreases |s|
  {
    if |s| > 0 {
      SplitNoSep(s[1..]);
      assert [s[0]] + s[1..] == s;
    }
  }

  lemma {:induction false} SplitAfterPiece(p: string, t: string)
    requires Sep !in p
    ensures Split(p + [Sep] + t) == [p] + Split(t)
    decreases |p|
  {
    if |p| == 0 {
      assert p + [Sep] + t == [Sep] + t;
      assert ([Sep] + t)[1..] == t;
    } else {
      var s := p + [Sep] + t;
      assert s[0] == p[0];
      assert s[1..] == p[1..] + [Sep] + t;
      SplitAfterPiece(p[1..], t);
      assert [p[0]] + p[1..] == p;
    }
  }

  /** Splitting what was joined gives the parts back. */
  lemma {:induction false} SplitJoin(parts: seq<string>)
    requires |parts| >= 1
    requires forall i :: 0 <= i < |parts| ==> Sep !in parts[i]
    ensures Split(JoinParts(parts)) == parts
    decreases |parts|
  {
    if |parts| == 1 {
      SplitNoSep(parts[0]);
    } else {
      SplitJoin(parts[1..]);
      SplitAfterPiece(parts[0], JoinParts(parts[1..]));
      assert [parts[0]] + parts[1..] == parts;
    }
  }

  lemma {:induction false} KeepPartsOfParts(parts: seq<string>)
    requires forall i :: 0 <= i < |parts| ==> IsPart(parts[i])
    ensures KeepParts(parts) == parts
    decreases |parts|
  {
    if |parts| > 0 {
      KeepPartsOfParts(parts[1..]);
      assert [parts[0]] + parts[1..] == parts;
    }
  }

  /** Dropping pieces works piecewise, so the kept parts stay in their order. */
  lemma {:induction false} KeepPartsAppend(a: seq<string>, b: seq<string>)
    ensures KeepParts(a + b) == KeepParts(a) + KeepParts(b)
    decreases |a|
  {
    if |a| == 0 {
      assert a + b == b;
    } else {
      var ab := a + b;
      assert ab[0] == a[0];
      assert ab[1..] == a[1..] + b;
      KeepPartsAppend(a[1..], b);
      if a[0] == "" || a[0] == "." {
        calc {
          KeepParts(ab);
          KeepParts(a[1..] + b);
          KeepParts(a[1..]) + KeepParts(b);
          KeepParts(a) + KeepParts(b);
        }
      } else {
        calc {
          KeepParts(ab);
          [a[0]] + KeepParts(a[1..] + b);
          [a[0]] + (KeepParts(a[1..]) + KeepParts(b));
          ([a[0]] + KeepParts(a[1..])) + KeepParts(b);
          KeepParts(a) + KeepParts(b);
        }
      }
    }
  }

  lemma JoinPartsStart(parts: seq<string>)
    requires |parts| >= 1 && IsPart(parts[0])
    ensures |JoinParts(parts)| >= 1 && JoinParts(parts)[0] == parts[0][0]
  {
  }

  // ---------------------------------------------------------------------------
  // Parsing and printing (PurePosixPath(s) and str(path))

  /** Python's `posixpath.splitroot`: exactly two leading separators are kept as
      the root "//", one or three and more collapse to "/". Returns (root, rest). */
  function SplitRoot(s: string): (r: (string, string))
    ensures r.0 == "" || r.0 == "/" || r.0 == "//"
    ensures s == r.0 + r.1
    ensures r.0 == "" <==> (|s| == 0 || s[0] != Sep)
  {
    if |s| == 0 || s[0] != Sep then ("", s)
    else if |s| >= 2 && s[1] == Sep && !(|s| >= 3 && s[2] == Sep) then ("//", s[2..])
    else ("/", s[1..])
  }

  /** `PurePosixPath(s)`: the root, then the pieces of the rest with the empty
      and "." pieces dropped. */
  function Parse(s: string): (p: Path)
    ensures WellFormed(p)
  {
    var (root, rest) := SplitRoot(s);
    Path(root, KeepParts(Split(rest)))
  }

  /** `str(path)`: root, then the parts joined by separators; "." when both are empty. */
  function Str(p: Path): (r: string)
    ensures WellFormed(p) ==> |r| > 0
  {
    if p.root == "" && |p.parts| == 0 then "."
    else
      var joined := JoinParts(p.parts);
      assert WellFormed(p) && |p.parts| > 0 ==> |joined| > 0 by {
        if WellFormed(p) && |p.parts| > 0 {
          JoinPartsStart(p.parts);
        }
      }
      p.root + joined
  }

  /** Printing a parsed path and parsing it again gives the same path, so code that
      passes `str(path)` around and re-parses it sees the same name. */
  lemma ParseStr(p: Path)
    requires WellFormed(p)
    ensures Parse(Str(p)) == p
  {
    var s := Str(p);
    if |p.parts| == 0 {
      assert Split("") == [""];
      assert KeepParts([""]) == [];
      if p.root == "" {
        assert s == ".";
        SplitNoSep(".");
        assert KeepParts(["."]) == [];
      } else if p.root == "/" {
        assert s == "/";
        assert SplitRoot(s) == ("/", "");
      } else {
        assert s == "//";
        assert SplitRoot(s) == ("//", "");
      }
    } else {
      var j := JoinParts(p.parts);
      JoinPartsStart(p.parts);
      SplitJoin(p.parts);
      KeepPartsOfParts(p.parts);
      if p.root == "" {
        assert s == j;
        assert SplitRoot(s) == ("", j);
      } else if p.root == "/" {
        assert s == "/" + j;
        assert s[1..] == j;
        assert SplitRoot(s) == ("/", j);
      } else {
        assert s == "//" + j;
        assert s[2..] == j;
        assert SplitRoot(s) == ("//", j);
      }
    }
  }

  /** `os.path.join(dir, name)` for a directory that does not end in a separator:
      an absolute name replaces the directory. */
  function JoinPath(dir: string, name: string): string
  {
    if |name| > 0 && name[0] == Sep then name else dir + [Sep] + name
  }

  // ---------------------------------------------------------------------------
  // name, suffix, stem

  /** `path.name`: the final part, or "" when there is none. */
  function Name(p: Path): (r: string)
    ensures WellFormed(p) ==> (r == "" <==> |p.parts| == 0)
    ensures |p.parts| > 0 ==> r in p.parts
  {
    if |p.parts| == 0 then "" else p.parts[|p.parts| - 1]
  }

  /** The name of a path is its final part: adding a part gives that part as the
      name, whatever came before it. */
  lemma NameOfChild(p: Path, n: string)
    requires WellFormed(p) && IsPart(n)
    ensures WellFormed(Path(p.root, p.parts + [n]))
    ensures Name(Path(p.root, p.parts + [n])) == n
  {
  }

  /** `str.rfind('.')`: the index of the last dot, if any. */
  function LastDot(s: string): (r: Option<nat>)
    ensures r.Some? ==> r.value < |s| && s[r.value] == '.'
    ensures r.Some? ==> forall j :: r.value < j < |s| ==> s[j] != '.'
    ensures r.None? ==> forall j :: 0 <= j < |s| ==> s[j] != '.'
    decreases |s|
  {
    if |s| == 0 then None
    else if s[|s| - 1] == '.' then Some(|s| - 1)
    else LastDot(s[..|s| - 1])
  }

  /** `PurePath.suffix`: from the last dot on, provided that dot is neither the
      first nor the last character of the name. */
  function Suffix(name: string): (r: string)
    ensures r == "" || (2 <= |r| < |name| && r[0] == '.' && r == name[|name| - |r|..])
  {
    match LastDot(name)
    case Some(i) => if 0 < i < |name| - 1 then name[i..] else ""
    case None => ""
  }

  /** `PurePath.stem`: the name without its suffix. */
  function Stem(name: string): (r: string)
    ensures |r| <= |name| && r == name[..|r|]
    ensures name != "" ==> r != ""
  {
    match LastDot(name)
    case Some(i) => if 0 < i < |name| - 1 then name[..i] else name
    case None => name
  }

  /** `name == stem + suffix` splits a name at a real suffix: a non-empty stem, then
      a dot, then at least one character none of which is a dot. */
  predicate IsSuffixSplit(name: string, stem: string, suffix: string)
  {
    && name == stem + suffix
    && |stem| >= 1
    && |suffix| >= 2
    && suffix[0] == '.'
    && forall j :: 1 <= j < |suffix| ==> suffix[j] != '.'
  }

  /** The stem and the suffix put back together give the name. */
  lemma StemSuffix(name: string)
    ensures Stem(name) + Suffix(name) == name
  {
    match LastDot(name)
    case Some(i) =>
      if 0 < i < |name| - 1 {
        assert name[..i] + name[i..] == name;
      }
    case None =>
  }

  /** A non-empty suffix is exactly a real suffix split of the name... */
  lemma SuffixIsSplit(name: string)
    requires Suffix(name) != ""
    ensures IsSuffixSplit(name, Stem(name), Suffix(name))
  {
    StemSuffix(name);
  }

  /** ...and any real suffix split of a name is the one `suffix`/`stem` pick. */
  lemma SplitIsSuffix(name: string, stem: string, suffix: string)
    requires IsSuffixSplit(name, stem, suffix)
    ensures Suffix(name) == suffix && Stem(name) == stem
  {
    var i := |stem|;
    assert name[i] == '.';
    forall j | i < j < |name|
      ensures name[j] != '.'
    {
      assert name[j] == suffix[j - i];
    }
    match LastDot(name)
    case None =>
      assert false;
    case Some(k) =>
      assert k >= i;
      assert k == i;
      assert name[i..] == suffix;
      assert name[..i] == stem;
  }

  /** Without a real suffix split (no dot, only a leading dot, or a trailing dot)
      the suffix is empty and the stem is the whole name. */
  lemma NoSplitNoSuffix(name: string)
    requires forall stem, suffix :: !IsSuffixSplit(name, stem, suffix)
    ensures Suffix(name) == "" && Stem(name) == name
  {
    if Suffix(name) != "" {
      SuffixIsSplit(name);
      assert false;
    }
    StemSuffix(name);
  }

  lemma SuffixExamples()
    ensures Suffix("archive.tar.gz") == ".gz" && Stem("archive.tar.gz") == "archive.tar"
    ensures Suffix(".hidden") == "" && Stem(".hidden") == ".hidden"
    ensures Suffix("notes.") == "" && Stem("notes.") == "notes."
    ensures Suffix("Data.CSV") == ".CSV" && Stem("Data.CSV") == "Data"
    ensures Suffix("README") == "" && Stem("README") == "README"
  {
    SplitIsSuffix("archive.tar.gz", "archive.tar", ".gz");
    SplitIsSuffix("Data.CSV", "Data", ".CSV");
    assert forall j :: 0 < j < 7 ==> ".hidden"[j] != '.';
    assert LastDot("notes.") == Some(5);
  }

  // ---------------------------------------------------------------------------
  // str.lower on ASCII letters

  function LowerChar(c: char): char
  {
    if 'A' <= c <= 'Z' then (c as int - 'A' as int + 'a' as int) as char else c
  }

  /** `s.lower()`, restricted to the ASCII letters. */
  function Lower(s: string): (r: string)
    ensures |r| == |s|
    ensures forall i :: 0 <= i < |s| ==> r[i] == LowerChar(s[i])
    decreases |s|
  {
    if |s| == 0 then "" else [LowerChar(s[0])] + Lower(s[1..])
  }

  predicate EqualIgnoringCase(a: string, b: string)
  {
    |a| == |b| && forall i :: 0 <= i < |a| ==> LowerChar(a[i]) == LowerChar(b[i])
  }

  predicate IsLowerCase(s: string)
  {
    forall i :: 0 <= i < |s| ==> !('A' <= s[i] <= 'Z')
  }

  /** Lowering gives a lower-case string and lowering twice is lowering once. */
  lemma LowerIdempotent(s: string)
    ensures IsLowerCase(Lower(s))
    ensures Lower(Lower(s)) == Lower(s)
  {
  }

  /** Against a lower-case target, comparing the lowered string is comparing
      without regard to case. */
  lemma LowerMatches(s: string, target: string)
    requires IsLowerCase(target)
    ensures Lower(s) == target <==> EqualIgnoringCase(s, target)
  {
    if EqualIgnoringCase(s, target) {
      assert forall i :: 0 <= i < |target| ==> LowerChar(target[i]) == target[i];
      assert Lower(s) == target;
    }
  }
}

=== FILE: schema.dfy ===
/** The `/schema/{table_name}` endpoint: the store's `PRAGMA table_info` rows for
    a table, reshaped into one descriptor per column, or an error reply when the
    query raises or finds no columns. */
module Schema {
  import opened Wrappers
  import opened Tables
  import opened Ingest

  /** One row of `PRAGMA table_info`: column index, name, declared type, the
      not-null flag as 0/1, the default's SQL text, and the 1-based position in
      the primary key (0 when not part of it). */
  datatype PragmaRow = PragmaRow(
    cid: int,
    name: string,
    declType: string,
    notNull: int,
    dflt: Option<string>,
    pk: int)

  /** The JSON object the endpoint builds per row; `bool(...)` turns the two
      integer flags into booleans. */
  datatype Descriptor = Descriptor(
    columnId: int,
    name: string,
    declType: string,
    notNull: bool,
    defaultValue: Option<string>,
    primaryKey: bool)

  datatype SchemaReply =
    | TableSchema(table: string, schema: seq<Descriptor>)
    | SchemaError(error: string)

  const MissingPrefix: string := "Table '"
  const MissingSuffix: string := "' does not exist or has no schema."
  const FailurePrefix: string := "Failed to retrieve schema for table '"

  /** The list comprehension over the fetched rows: one descriptor per row, in
      the rows' order, each flag true exactly when the stored integer is nonzero. */
  function Describe(rows: seq<PragmaRow>): (r: seq<Descriptor>)
    ensures |r| == |rows|
    ensures forall i :: 0 <= i < |rows| ==>
      && r[i].columnId == rows[i].cid
      && r[i].name == rows[i].name
      && r[i].declType == rows[i].declType
      && (r[i].notNull <==> rows[i].notNull != 0)
      && r[i].defaultValue == rows[i].dflt
      && (r[i].primaryKey <==> rows[i].pk != 0)
  {
    seq(|rows|, i requires 0 <= i < |rows| =>
      Descriptor(rows[i].cid, rows[i].name, rows[i].declType,
        rows[i].notNull != 0, rows[i].dflt, rows[i].pk != 0))
  }

  /** `get_table_schema(table_name)` given the outcome of running the query: the
      exception text, or the rows it fetched. */
  function GetTableSchema(query: Result<seq<PragmaRow>, string>, tableName: string): (r: SchemaReply)
    ensures r.TableSchema? <==> query.Success? && |query.value| > 0
    ensures r.TableSchema? ==> r.table == tableName && r.schema == Describe(query.value)
    ensures query.Success? && |query.value| == 0 ==>
      r == SchemaError(MissingPrefix + tableName + MissingSuffix)
    ensures query.Failure? ==>
      r == SchemaError(FailurePrefix + tableName + "': " + query.error)
  {
    match query
    case Failure(e) => SchemaError(FailurePrefix + tableName + "': " + e)
    case Success(rows) =>
      var schema := Describe(rows);
      if |schema| == 0 then SchemaError(MissingPrefix + tableName + MissingSuffix)
      else TableSchema(tableName, schema)
  }

  /** What `PRAGMA table_info` reports for a stored table: one row per declared
      column, numbered from 0 in declaration order. */
  function TableInfo(t: StoredTable): (r: seq<PragmaRow>)
    ensures |r| == |t.columns|
    ensures forall i :: 0 <= i < |r| ==>
      && r[i].cid == i
      && r[i].name == t.columns[i].name
      && r[i].declType == t.columns[i].declType
      && (r[i].notNull == 1 <==> t.columns[i].notNull)
      && 0 <= r[i].notNull <= 1
      && r[i].dflt == t.columns[i].default
      && r[i].pk == t.columns[i].pkPosition
  {
    seq(|t.columns|, i requires 0 <= i < |t.columns| =>
      var c := t.columns[i];
      PragmaRow(i, c.name, c.declType, if c.notNull then 1 else 0, c.default, c.pkPosition))
  }

  /** `PRAGMA table_info` on the store: a name with no table yields no rows rather
      than an error. */
  function Query(store: Store, tableName: string): (r: seq<PragmaRow>)
    ensures tableName !in store ==> r == []
    ensures tableName in store ==> r == TableInfo(store[tableName])
  {
    if tableName in store then TableInfo(store[tableName]) else []
  }

  /** The schema the endpoint reports for a table of the store, when the query
      itself does not raise. */
  function SchemaOf(store: Store, tableName: string): SchemaReply
  {
    GetTableSchema(Success(Query(store, tableName)), tableName)
  }

  /** Descriptors give back the stored column definitions: name, type, not-null
      flag and default unchanged, the column's position as its id, and the
      primary-key flag set exactly for the key's columns. */
  lemma DescribeTableInfo(t: StoredTable)
    ensures |Describe(TableInfo(t))| == |t.columns|
    ensures forall i :: 0 <= i < |t.columns| ==>
      Describe(TableInfo(t))[i]
        == Descriptor(i, t.columns[i].name, t.columns[i].declType, t.columns[i].notNull,
                      t.columns[i].default, t.columns[i].pkPosition > 0)
  {
  }

  /** A name the store has no table for is reported as missing. */
  lemma MissingTableIsError(store: Store, tableName: string)
    requires tableName !in store
    ensures SchemaOf(store, tableName) == SchemaError(MissingPrefix + tableName + MissingSuffix)
  {
  }

  /** A freshly created store describes its `example` table as one integer
      column `id` that is the primary key and not declared not-null. */
  lemma ExampleSchema()
    ensures SchemaOf(Bootstrap(None), ExampleName)
      == TableSchema(ExampleName, [Descriptor(0, "id", "INTEGER", false, None, true)])
  {
    var s := SchemaOf(Bootstrap(None), ExampleName);
    DescribeTableInfo(ExampleTable);
    assert |s.schema| == 1;
  }

  /** After a file is saved, its table's schema lists the frame's columns in
      order, under their names and type tags, nullable, without defaults and
      outside any primary key. */
  lemma SchemaAfterIngest(env: Env, store: Store, filePath: string, ext: string, content: Bytes)
    requires ProcessFileToSql(env, store, filePath, ext, content).status.Saved?
    ensures var after := ProcessFileToSql(env, store, filePath, ext, content).store;
      var name := TableName(filePath);
      var t := Prepare(env, filePath, ext, content).table;
      && SchemaOf(after, name).TableSchema?
      && SchemaOf(after, name).table == name
      && |SchemaOf(after, name).schema| == |t.columns|
      && forall i :: 0 <= i < |t.columns| ==>
           SchemaOf(after, name).schema[i]
             == Descriptor(i, t.columns[i].name, t.columns[i].sqlType, false, None, false)
  {
    var after := ProcessFileToSql(env, store, filePath, ext, content).store;
    var a := Prepare(env, filePath, ext, content);
    assert after[a.name] == ToSql(a.table);
    DescribeTableInfo(ToSql(a.table));
  }
}

=== FILE: sheets.dfy ===
/** The sheet endpoint's conversion of fetched rows into records: the first row
    is the header, and every later row becomes one record pairing headers with
    cells as `dict(zip(headers, row))` does. */
module Sheets {
  import opened Wrappers

  type Row = seq<string>

  /** A record as a key/value mapping; see README for key order. */
  type Record = map<string, string>

  function Min(a: nat, b: nat): nat
  {
    if a <= b then a else b
  }

  /** `dict(zip(keys, vals))`: the pairs up to the shorter of the two sequences,
      inserted left to right, so a repeated key keeps the value of its last pair. */
  function ZipDict(keys: seq<string>, vals: seq<string>): Record
    decreases |keys|
  {
    var n := Min(|keys|, |vals|);
    if n == 0 then map[]
    else ZipDict(keys[..n - 1], vals[..n - 1])[keys[n - 1] := vals[n - 1]]
  }

  /** The position of the last occurrence of `k` in `s`, if any. */
  function LastIndex(s: seq<string>, k: string): (r: Option<nat>)
    ensures r.None? <==> k !in s
    ensures r.Some? ==>
      && r.value < |s|
      && s[r.value] == k
      && forall j :: r.value < j < |s| ==> s[j] != k
    decreases |s|
  {
    if |s| == 0 then None
    else if s[|s| - 1] == k then Some(|s| - 1)
    else LastIndex(s[..|s| - 1], k)
  }

  /** A key is in the zipped record exactly when it is among the headers that
      have a cell to pair with, and its value is the cell under its last such
      occurrence. */
  lemma {:induction false} ZipDictLookup(keys: seq<string>, vals: seq<string>, k: string)
    ensures var n := Min(|keys|, |vals|);
      && (k in ZipDict(keys, vals) <==> k in keys[..n])
      && (k in ZipDict(keys, vals) ==> ZipDict(keys, vals)[k] == vals[LastIndex(keys[..n], k).value])
    decreases |keys|
  {
    var n := Min(|keys|, |vals|);
    if n > 0 {
      var ks := keys[..n - 1];
      var vs := vals[..n - 1];
      ZipDictLookup(ks, vs, k);
      assert Min(|ks|, |vs|) == n - 1;
      assert ks[..n - 1] == keys[..n][..n - 1];
      var prefix := keys[..n];
      if keys[n - 1] != k {
        assert k in prefix <==> k in ks by {
          assert prefix == ks + [keys[n - 1]];
        }
        if k in ks {
          assert LastIndex(prefix, k) == LastIndex(ks, k);
        }
      } else {
        assert prefix[n - 1] == k;
      }
    }
  }

  /** The records built from the fetched rows: none when there are no rows, and
      otherwise one per row after the header, in order, each zipping the header
      row with that row. */
  function Records(rows: seq<Row>): (r: seq<Record>)
    ensures |rows| == 0 ==> r == []
    ensures |rows| > 0 ==> |r| == |rows| - 1
    ensures forall i :: 0 <= i < |r| ==> r[i] == ZipDict(rows[0], rows[i + 1])
  {
    if |rows| == 0 then []
    else seq(|rows| - 1, i requires 0 <= i < |rows| - 1 => ZipDict(rows[0], rows[i + 1]))
  }

  /** A record's keys are the headers that have a cell in its row; a short row
      lacks the trailing headers, and the cells of a long row past the last
      header are dropped. A repeated header takes the cell under its last
      occurrence. */
  lemma RecordFields(rows: seq<Row>, i: nat, k: string)
    requires i + 1 < |rows|
    ensures var n := Min(|rows[0]|, |rows[i + 1]|);
      && (k in Records(rows)[i] <==> k in rows[0][..n])
      && (k in Records(rows)[i] ==> Records(rows)[i][k] == rows[i + 1][LastIndex(rows[0][..n], k).value])
  {
    ZipDictLookup(rows[0], rows[i + 1], k);
  }

  /** The reply of the endpoint: the records, or the text of the exception the
      fetch raised (sent with status 500). */
  datatype SheetReply = Data(records: seq<Record>) | SheetError(error: string, status: nat)

  const ServerError: nat := 500

  /** `get_sheet_data` given the outcome of the fetch: the exception text, or the
      response, whose `values` entry may be missing (read as no rows). */
  function GetSheetData(fetch: Result<Option<seq<Row>>, string>): (r: SheetReply)
    ensures fetch.Failure? ==> r == SheetError(fetch.error, ServerError)
    ensures fetch.Success? ==> r.Data?
    ensures fetch == Success(None) ==> r == Data([])
    ensures fetch.Success? && fetch.value.Some? ==> r == Data(Records(fetch.value.value))
  {
    match fetch
    case Failure(e) => SheetError(e, ServerError)
    case Success(None) => Data([])
    case Success(Some(rows)) => Data(Records(rows))
  }

  /** Headers `a, b, c` over a row with one cell give a record with `a` alone. */
  lemma ShortRowTruncates()
    ensures Records([["a", "b", "c"], ["1"]]) == [map["a" := "1"]]
  {
    var r := Records([["a", "b", "c"], ["1"]]);
    assert ["a", "b", "c"][..1] == ["a"];
    assert ["1"][..0] == [];
    assert ZipDict(["a", "b", "c"], ["1"]) == ZipDict(["a"], [])[ "a" := "1"];
  }

  /** A header row `a, a` over cells `1, 2` gives a record mapping `a` to `2`. */
  lemma DuplicateHeaderLastWins()
    ensures Records([["a", "a"], ["1", "2"]]) == [map["a" := "2"]]
  {
    var keys := ["a", "a"];
    var vals := ["1", "2"];
    assert keys[..1] == ["a"] && vals[..1] == ["1"];
    assert keys[..1][..0] == [] && vals[..1][..0] == [];
    assert ZipDict(keys[..1], vals[..1]) == map["a" := "1"];
    assert ZipDict(keys, vals) == map["a" := "2"];
  }
}

=== FILE: tables.dfy ===
/** What the ingestion pipeline reads and writes: the in-memory frame a decoder
    produces and the embedded store of named tables it is written into. */
module Tables {
  import opened Wrappers

  /** One cell of a frame or of a stored row. Floating-point values are kept
      as their decimal text; the model never computes with them. */
  datatype Cell = Null | Integer(i: int) | Real(text: string) | Text(s: string)

  /** A frame column with the SQL type tag it is declared with when written. */
  datatype Column = Column(name: string, sqlType: string)

  /** A decoded frame: ordered columns and ordered rows. */
  datatype Table = Table(columns: seq<Column>, rows: seq<seq<Cell>>)

  /** `DataFrame.empty`: true when either axis has length zero. */
  predicate IsEmpty(t: Table)
  {
    |t.columns| == 0 || |t.rows| == 0
  }

  /** A column as the store declares it. `pkPosition` is the column's 1-based
      position in the primary key, 0 when it is not part of it. */
  datatype ColumnDef = ColumnDef(
    name: string,
    declType: string,
    notNull: bool,
    default: Option<string>,
    pkPosition: nat)

  datatype StoredTable = StoredTable(columns: seq<ColumnDef>, rows: seq<seq<Cell>>)

  /** The embedded store: at most one table per name. */
  type Store = map<string, StoredTable>

  /** The table `DataFrame.to_sql(..., index=False)` creates: one nullable column
      per frame column, no default, no primary key, the frame's rows in order. */
  function ToSql(t: Table): (r: StoredTable)
    ensures |r.columns| == |t.columns|
    ensures forall i :: 0 <= i < |t.columns| ==>
      && r.columns[i].name == t.columns[i].name
      && r.columns[i].declType == t.columns[i].sqlType
      && !r.columns[i].notNull
      && r.columns[i].default == None
      && r.columns[i].pkPosition == 0
    ensures r.rows == t.rows
  {
    StoredTable(
      seq(|t.columns|, i requires 0 <= i < |t.columns| =>
        ColumnDef(t.columns[i].name, t.columns[i].sqlType, false, None, 0)),
      t.rows)
  }

  /** `if_exists="replace"`: the table of that name is dropped if present and the
      new one takes its place; every other table is untouched. */
  function Replace(store: Store, name: string, table: StoredTable): (r: Store)
    ensures name in r && r[name] == table
    ensures r.Keys == store.Keys + {name}
    ensures forall n :: n in store && n != name ==> r[n] == store[n]
  {
    store[name := table]
  }

  /** Writing the same table under the same name twice leaves what writing it once did. */
  lemma ReplaceIdempotent(store: Store, name: string, table: StoredTable)
    ensures Replace(Replace(store, name, table), name, table) == Replace(store, name, table)
  {
  }

  /** The later of two writes to one name wins. */
  lemma ReplaceLaterWins(store: Store, name: string, first: StoredTable, second: StoredTable)
    ensures Replace(Replace(store, name, first), name, second) == Replace(store, name, second)
  {
  }

  const ExampleName: string := "example"

  /** `CREATE TABLE example (id INTEGER PRIMARY KEY)`: one integer column that is
      the whole primary key, no rows. */
  const ExampleTable: StoredTable :=
    StoredTable([ColumnDef("id", "INTEGER", false, None, 1)], [])

  /** Start-up: a store file that does not exist yet is created holding only the
      `example` table; an existing store is opened as it is. */
  function Bootstrap(existing: Option<Store>): (r: Store)
    ensures existing.None? ==> r.Keys == {ExampleName} && r[ExampleName] == ExampleTable
    ensures existing.Some? ==> r == existing.value
  {
    match existing
    case None => map[ExampleName := ExampleTable]
    case Some(s) => s
  }
}

=== FILE: upload.dfy ===
/** The `/upload` endpoint's loop: each file is saved under `uploads/`, its
    suffix is lower-cased, it is processed, and one `{file, message}` result is
    appended per file, in order. Only a failure to save a file (or to create the
    upload directory) escapes the loop, turning the reply into an error. */
module Upload {
  import opened Wrappers
  import opened Paths
  import opened Tables
  import opened Ingest

  const UploadDir: string := "uploads"
  const UploadErrorPrefix: string := "Failed to upload and process files: "

  datatype UploadFile = UploadFile(filename: string, content: Bytes)

  datatype FileResult = FileResult(file: string, message: string)

  datatype UploadReply = Results(results: seq<FileResult>) | UploadError(error: string)

  /** The file-system steps of the loop the model does not look inside:
      the exception creating the upload directory raises, and the exception saving
      a file's bytes under its name raises, if any. */
  datatype Transport = Transport(
    mkdirFault: Option<string>,
    saveFault: (string, Bytes) -> Option<string>)

  predicate Saves(transport: Transport, f: UploadFile)
  {
    transport.saveFault(f.filename, f.content).None?
  }

  /** `Path("uploads") / filename`. */
  function Location(filename: string): Path
  {
    Parse(JoinPath(UploadDir, filename))
  }

  /** A plain file name (no separator, not empty, not ".") stays the final part of
      its location, so its `name` is the file name itself, and the table named
      after the printed location is the file name's stem. */
  lemma PlainFileLocation(filename: string)
    requires IsPart(filename)
    ensures Location(filename) == Path("", [UploadDir, filename])
    ensures Name(Location(filename)) == filename
    ensures Str(Location(filename)) == UploadDir + [Sep] + filename
    ensures TableName(Str(Location(filename))) == Stem(filename)
  {
    SplitNoSep(filename);
    SplitAfterPiece(UploadDir, filename);
    assert Split(UploadDir + [Sep] + filename) == [UploadDir, filename];
    assert KeepParts([UploadDir, filename]) == [UploadDir] + KeepParts([filename]);
    assert Str(Location(filename)) == "" + JoinParts([UploadDir, filename]);
    assert JoinParts([UploadDir, filename]) == UploadDir + [Sep] + JoinParts([filename]);
    ParseStr(Location(filename));
  }

  /** The extension handed to `process_file_to_sql`: the location's suffix,
      lower-cased. Only the suffix is lowered; the stem keeps its case. */
  function Extension(filename: string): string
  {
    Lower(Suffix(Name(Location(filename))))
  }

  /** What processing one uploaded file decides. */
  function Outcome(env: Env, f: UploadFile): Attempt
  {
    Prepare(env, Str(Location(f.filename)), Extension(f.filename), f.content)
  }

  /** One iteration of the loop: `process_file_to_sql(str(file_location),
      file_location.suffix.lower())`, whose decision does not depend on the store
      it is applied to. */
  function Handle(env: Env, store: Store, f: UploadFile): (r: Ingested)
    ensures r == Ingested(Outcome(env, f).status, Write(store, Outcome(env, f)))
    ensures r.status.Unsupported? <==> Extension(f.filename) !in SupportedExtensions
  {
    ProcessFileToSql(env, store, Str(Location(f.filename)), Extension(f.filename), f.content)
  }

  /** A plain file name that is saved is reported at `uploads/<name>` and written
      to the table named by its stem, in the stem's own case. */
  lemma HandleSavesUnderStem(env: Env, store: Store, f: UploadFile)
    requires IsPart(f.filename)
    ensures Handle(env, store, f).status.Saved? ==>
      && Handle(env, store, f).status.path == UploadDir + [Sep] + f.filename
      && Handle(env, store, f).status.table == Stem(f.filename)
  {
    PlainFileLocation(f.filename);
  }

  /** The per-file decisions of a batch, as a function of the file alone. */
  function Plan(env: Env): UploadFile -> Attempt
  {
    f => Outcome(env, f)
  }

  /** Whether a decision writes the table `name`. */
  predicate WritesTo(a: Attempt, name: string)
  {
    a.Commit? && a.name == name
  }

  /** The store after the loop has handled `files`, one after the other. */
  function Replay(plan: UploadFile -> Attempt, store: Store, files: seq<UploadFile>): Store
    decreases |files|
  {
    if |files| == 0 then store
    else Write(Replay(plan, store, files[..|files| - 1]), plan(files[|files| - 1]))
  }

  /** The `{file, message}` entry the loop appends for a file. */
  function Report(plan: UploadFile -> Attempt, f: UploadFile): FileResult
  {
    FileResult(f.filename, Message(plan(f).status))
  }

  /** The index of the first file whose save raises, if any. */
  function FirstFailedSave(transport: Transport, files: seq<UploadFile>): (r: Option<nat>)
    ensures r.None? <==> forall i :: 0 <= i < |files| ==> Saves(transport, files[i])
    ensures r.Some? ==>
      && r.value < |files|
      && !Saves(transport, files[r.value])
      && forall j :: 0 <= j < r.value ==> Saves(transport, files[j])
    decreases |files|
  {
    if |files| == 0 then None
    else if !Saves(transport, files[0]) then Some(0)
    else match FirstFailedSave(transport, files[1..])
      case None => None
      case Some(k) => Some(k + 1)
  }

  /** The loop of `upload_files` over the per-file decisions `plan`: one result per
      file, in order, each naming the uploaded file and carrying its status, and
      the store after all of them. A file that fails to process does not stop the
      ones after it; a file that fails to save ends the request with an error
      reply, keeping what the earlier files wrote. */
  method UploadLoop(plan: UploadFile -> Attempt, transport: Transport, store: Store, files: seq<UploadFile>)
    returns (reply: UploadReply, after: Store)
    ensures FirstFailedSave(transport, files).None? ==>
      && reply.Results?
      && |reply.results| == |files|
      && (forall i :: 0 <= i < |files| ==> reply.results[i] == Report(plan, files[i]))
      && after == Replay(plan, store, files)
    ensures FirstFailedSave(transport, files).Some? ==>
      var k := FirstFailedSave(transport, files).value;
      && reply == UploadError(UploadErrorPrefix
           + transport.saveFault(files[k].filename, files[k].content).value)
      && after == Replay(plan, store, files[..k])
  {
    var results: seq<FileResult> := [];
    after := store;
    var i := 0;
    while i < |files|
      invariant 0 <= i <= |files|
      invariant |results| == i
      invariant forall j :: 0 <= j < i ==> Saves(transport, files[j])
      invariant forall j :: 0 <= j < i ==> results[j] == Report(plan, files[j])
      invariant after == Replay(plan, store, files[..i])
    {
      var fault := transport.saveFault(files[i].filename, files[i].content);
      if fault.Some? {
        return UploadError(UploadErrorPrefix + fault.value), after;
      }
      var decided := plan(files[i]);
      results := results + [FileResult(files[i].filename, Message(decided.status))];
      assert files[..i + 1][..i] == files[..i];
      after := Write(after, decided);
      i := i + 1;
    }
    assert files[..|files|] == files;
    reply := Results(results);
  }

  /** `upload_files`: creating the upload directory can fail before any file is
      looked at; otherwise the loop runs with each file processed by
      `process_file_to_sql`, whose status does not depend on the store. */
  method UploadFiles(env: Env, transport: Transport, store: Store, files: seq<UploadFile>)
    returns (reply: UploadReply, after: Store)
    ensures transport.mkdirFault.Some? ==>
      reply == UploadError(UploadErrorPrefix + transport.mkdirFault.value) && after == store
    ensures transport.mkdirFault.None? && FirstFailedSave(transport, files).None? ==>
      && reply.Results?
      && |reply.results| == |files|
      && (forall i :: 0 <= i < |files| ==>
            reply.results[i] == FileResult(files[i].filename, Message(Outcome(env, files[i]).status)))
      && after == Replay(Plan(env), store, files)
    ensures transport.mkdirFault.None? && FirstFailedSave(transport, files).Some? ==>
      var k := FirstFailedSave(transport, files).value;
      && reply == UploadError(UploadErrorPrefix
           + transport.saveFault(files[k].filename, files[k].content).value)
      && after == Replay(Plan(env), store, files[..k])
  {
    if transport.mkdirFault.Some? {
      return UploadError(UploadErrorPrefix + transport.mkdirFault.value), store;
    }
    reply, after := UploadLoop(Plan(env), transport, store, files);
  }

  /** Each step of the batch is `process_file_to_sql` against the store the files
      before it left, and what it reports does not depend on that store. */
  lemma ReplayStep(env: Env, store: Store, files: seq<UploadFile>, other: Store)
    requires |files| > 0
    ensures Replay(Plan(env), store, files)
      == Handle(env, Replay(Plan(env), store, files[..|files| - 1]), files[|files| - 1]).store
    ensures Handle(env, other, files[|files| - 1]).status
      == Handle(env, Replay(Plan(env), store, files[..|files| - 1]), files[|files| - 1]).status
  {
  }

  /** A table no file in the batch writes is exactly as it was before the batch
      (present with the same contents, or still absent). */
  lemma {:induction false} ReplayKeepsUnwritten(plan: UploadFile -> Attempt, store: Store, files: seq<UploadFile>, name: string)
    requires forall i :: 0 <= i < |files| ==> !WritesTo(plan(files[i]), name)
    ensures name in Replay(plan, store, files) <==> name in store
    ensures name in store ==> Replay(plan, store, files)[name] == store[name]
    decreases |files|
  {
    if |files| > 0 {
      var init := files[..|files| - 1];
      assert forall j :: 0 <= j < |init| ==> init[j] == files[j];
      ReplayKeepsUnwritten(plan, store, init, name);
      assert !WritesTo(plan(files[|files| - 1]), name);
    }
  }

  /** When several files of a batch write the same table, the last of them wins. */
  lemma {:induction false} ReplayLastWriterWins(plan: UploadFile -> Attempt, store: Store, files: seq<UploadFile>, i: nat, name: string)
    requires i < |files|
    requires WritesTo(plan(files[i]), name)
    requires forall j :: i < j < |files| ==> !WritesTo(plan(files[j]), name)
    ensures name in Replay(plan, store, files)
    ensures Replay(plan, store, files)[name] == ToSql(plan(files[i]).table)
    decreases |files|
  {
    var init := files[..|files| - 1];
    if i < |files| - 1 {
      assert init[i] == files[i];
      assert forall j :: i < j < |init| ==> init[j] == files[j];
      ReplayLastWriterWins(plan, store, init, i, name);
      assert !WritesTo(plan(files[|files| - 1]), name);
    }
  }

  /** The tables after a batch are those before it plus one per name some file wrote. */
  lemma {:induction false} ReplayKeys(plan: UploadFile -> Attempt, store: Store, files: seq<UploadFile>)
    ensures Replay(plan, store, files).Keys ==
      store.Keys + set i | 0 <= i < |files| && plan(files[i]).Commit? :: plan(files[i]).name
    decreases |files|
  {
    if |files| > 0 {
      var init := files[..|files| - 1];
      var last := plan(files[|files| - 1]);
      ReplayKeys(plan, store, init);
      var written := set i | 0 <= i < |files| && plan(files[i]).Commit? :: plan(files[i]).name;
      var writtenInit := set i | 0 <= i < |init| && plan(init[i]).Commit? :: plan(init[i]).name;
      assert forall j :: 0 <= j < |init| ==> init[j] == files[j];
      if last.Commit? {
        assert written == writtenInit + {last.name};
      } else {
        assert written == writtenInit;
      }
    }
  }

  /** A supported extension is chosen by the file's suffix without regard to
      case: `.CSV`, `.Csv` and `.csv` all reach the CSV reader. */
  lemma ExtensionIgnoresCase(filename: string, ext: string)
    requires ext in SupportedExtensions
    ensures Extension(filename) == ext <==> EqualIgnoringCase(Suffix(Name(Location(filename))), ext)
  {
    SupportedIgnoresCase(Suffix(Name(Location(filename))), ext);
  }

  /** Against a supported extension, lowering a suffix and comparing is comparing
      without regard to case. */
  lemma SupportedIgnoresCase(suffix: string, ext: string)
    requires ext in SupportedExtensions
    ensures Lower(suffix) == ext <==> EqualIgnoringCase(suffix, ext)
  {
    assert IsLowerCase(ext);
    LowerMatches(suffix, ext);
  }

  /** A file whose name has no suffix (`README`, `notes.`, `.hidden`) reaches no
      reader: it is reported with the empty extension and the store is unchanged. */
  lemma NoSuffixRejected(env: Env, store: Store, f: UploadFile)
    requires Suffix(Name(Location(f.filename))) == ""
    ensures Handle(env, store, f) == Ingested(Unsupported(""), store)
  {
    assert Extension(f.filename) == "";
  }

  // The `Data.CSV` example. `UpperCaseSuffixLowered` and `UpperCaseSuffixAccepted`
  // state it; the lemmas before them are its steps, one per lemma, because a
  // literal path unfolds too far for the solver when they share one proof.

  lemma DataCsvIsPart()
    ensures IsPart("Data.CSV")
  {
    var filename := "Data.CSV";
    assert forall i :: 0 <= i < |filename| ==> filename[i] != Sep;
  }

  lemma DataCsvParsed()
    ensures Location("Data.CSV") == Path("", [UploadDir, "Data.CSV"])
  {
    DataCsvIsPart();
    PlainFileLocation("Data.CSV");
  }

  lemma DataCsvPrinted()
    ensures Str(Path("", [UploadDir, "Data.CSV"])) == "uploads/Data.CSV"
  {
    var parts := [UploadDir, "Data.CSV"];
    assert parts[1..] == ["Data.CSV"];
    assert JoinParts(parts) == UploadDir + [Sep] + "Data.CSV";
  }

  lemma DataCsvLocation()
    ensures Str(Location("Data.CSV")) == "uploads/Data.CSV"
    ensures Name(Location("Data.CSV")) == "Data.CSV"
  {
    DataCsvParsed();
    DataCsvPrinted();
  }

  lemma DataCsvExtension()
    ensures Extension("Data.CSV") == ".csv"
  {
    DataCsvLocation();
    SuffixExamples();
    assert Lower(".CSV") == ".csv";
  }

  lemma DataCsvTableName()
    ensures TableName("uploads/Data.CSV") == "Data"
  {
    DataCsvIsPart();
    PlainFileLocation("Data.CSV");
    DataCsvLocation();
    SuffixExamples();
  }

  /** Only the suffix of `Data.CSV` is lowered: the extension is `.csv` and the
      table keeps the stem's case, `Data`. */
  lemma UpperCaseSuffixLowered()
    ensures Extension("Data.CSV") == ".csv"
    ensures TableName("uploads/Data.CSV") == "Data"
  {
    DataCsvExtension();
    DataCsvTableName();
  }

  /** Uploading `Data.CSV`: the upper-case suffix is accepted as CSV and the table
      keeps the stem's case, `Data`. */
  lemma UpperCaseSuffixAccepted(env: Env, store: Store, content: Bytes, t: Table)
    requires env.decode(Csv, content) == Success(t)
    requires !IsEmpty(t)
    requires env.writeFault("Data", t).None?
    ensures Handle(env, store, UploadFile("Data.CSV", content)).status == Saved("uploads/Data.CSV", "Data")
    ensures Handle(env, store, UploadFile("Data.CSV", content)).store == Replace(store, "Data", ToSql(t))
  {
    DataCsvLocation();
    UpperCaseSuffixLowered();
    SavedReplacesStemOnly(env, store, "uploads/Data.CSV", ".csv", content, t);
  }
}

=== FILE: wrappers.dfy ===
/** Option and Result, the two failure-carrying shapes the model uses in place of
    Python's `None` and of exceptions. */
module Wrappers {

  datatype Option<+T> = None | Some(value: T)

  /** `Failure` carries the text of the exception the Python code would have raised. */
  datatype Result<+R, +E> = Success(value: R) | Failure(error: E)
}
